=== FILE: README.md ===
# GraphQLConf25 client: a verified model of its data shaping and view state

The GraphQLConf25 app lists the sessions and speakers of a conference.
It fetches them with four GraphQL queries and shows them on three screens:
the conference list, session details and speaker details.
Once each network call is replaced by its result, three pure layers remain.
This project models those layers in Dafny and proves facts about them.

- **Repository** (`repository.dfy`). This layer maps the record shapes of
  each query to the unified `Session` and `Speaker` records
  (`models.dfy`, `queries.dfy`). It also looks records up by key and
  filters the sessions of one speaker.
  Each query's `data` is an input `Option<seq<…>>`.
  Each speaker mapper is paired with a projection back to its query shape.
  The round-trip lemmas prove which fields a mapper keeps and which it blanks.
- **View models** (`*_view_model.dfy`). A load is two pure steps over an
  immutable UI-state record: `BeginLoad`, then `CompleteLoad`; the load
  function is their composition. It is driven by a `Response`, which either returned a value
  or threw an exception with an optional message.
  Each view model has an invariant, `Valid`, that both steps keep.
  The lemmas also show three more facts: a load is idempotent, a fetch the
  source skips cannot affect the result, and "not found" or a failure keeps
  the data loaded earlier.
- **Screens** (`display.dfy`, `*_screen.dfy`). These modules give the
  branch a screen shows (loading, then error, then content), the title
  fallbacks, the visibility rules ("non-empty and not the literal `null`")
  and the case-insensitive event-type badge. They also give the click target
  of each card. `formatSessionTime` is defined once, in `TimeFormat`, by
  string positions. Each of the three copies in the source splits the string
  on `"T"` and cuts at `"."`. Each copy is written out in its screen's
  module and proved equal to the shared definition.

The generic Kotlin collection and string operations that these layers use
are modelled in `seqs.dfy` (`map`, `filter`, `any`, `find`) and in
`text.dfy` (`indexOf`, `substringBefore`, `split`, `lowercase`).
`Split` is proved inverse to `Join` in both directions.

Two facts about the code shape the model:

- The speakers list query does not fetch `about`, `location`, `url` or
  `years`, so `getSpeakers()` leaves them blank or empty (`ProfileShaped`).
- Each view state is a record, not a choice of loading, loaded and error.
  "Not found" and failures set the error and keep the earlier data in place,
  and the model keeps that record.

## Model

| member | source | states |
|---|---|---|
| Models.SpeakerEquality | composeApp/src/commonMain/kotlin/org/example/graphqlconf25/data/Models.kt:15-25 | two speakers are equal exactly when all nine fields are equal (data class) |
| Models.SessionEquality | composeApp/src/commonMain/kotlin/org/example/graphqlconf25/data/Models.kt:3-13 | two sessions are equal exactly when all nine fields are equal (data class) |
| Seqs.Map | composeApp/src/commonMain/kotlin/org/example/graphqlconf25/data/ConferenceRepository.kt:17-20 | `map` yields one result per element, the i-th result being `f` of the i-th element |
| Seqs.Filter | composeApp/src/commonMain/kotlin/org/example/graphqlconf25/data/ConferenceRepository.kt:39-41 | `filter` keeps exactly the matching elements: each result matches and comes from the input, each matching input is kept, and the result is empty iff nothing matches |
| Seqs.Any | composeApp/src/commonMain/kotlin/org/example/graphqlconf25/data/ConferenceRepository.kt:40 | `any` is true iff some element satisfies the predicate |
| Seqs.Find | composeApp/src/commonMain/kotlin/org/example/graphqlconf25/data/ConferenceRepository.kt:24 | `find` is null iff nothing matches, else the element at the first matching position |
| Seqs.FilterAppend | composeApp/src/commonMain/kotlin/org/example/graphqlconf25/data/ConferenceRepository.kt:39-41 | filtering distributes over concatenation, so relative order is preserved |
| Text.SubstringBefore | composeApp/src/commonMain/kotlin/org/example/graphqlconf25/ui/screens/ConferenceScreen.kt:303-304 | `substringBefore` gives the longest prefix free of the delimiter, so the whole string when the delimiter is absent |
| Text.Split | composeApp/src/commonMain/kotlin/org/example/graphqlconf25/ui/screens/ConferenceScreen.kt:295-298 | `split` gives at least one piece, at least two iff the delimiter occurs, no piece contains it, and the first piece is the text before the first delimiter |
| Text.SplitSecond | composeApp/src/commonMain/kotlin/org/example/graphqlconf25/ui/screens/ConferenceScreen.kt:303-304 | the second piece of a split is the text after the first delimiter, up to the next delimiter |
| Text.JoinSplit | composeApp/src/commonMain/kotlin/org/example/graphqlconf25/ui/screens/ConferenceScreen.kt:295-296 | joining the pieces of a split with the delimiter restores the string |
| Text.SplitJoin | composeApp/src/commonMain/kotlin/org/example/graphqlconf25/ui/screens/ConferenceScreen.kt:295-296 | splitting a join of delimiter-free pieces gives back the same pieces |
| Text.LowercaseEqual | composeApp/src/commonMain/kotlin/org/example/graphqlconf25/ui/screens/ConferenceScreen.kt:168 | two strings have equal lowercase forms iff they are equal ignoring ASCII case |
| TimeFormat.DatePart | composeApp/src/commonMain/kotlin/org/example/graphqlconf25/ui/screens/ConferenceScreen.kt:302 | the date is free of `T` and, followed by `T`, is a prefix of the start string |
| TimeFormat.ClockPart | composeApp/src/commonMain/kotlin/org/example/graphqlconf25/ui/screens/ConferenceScreen.kt:303-304 | the clock contains neither `T` nor `.`, directly follows the date and first `T` in the string, and ends at the end of the string or at the next `.` or `T` |
| TimeFormat.EndDateIgnored | composeApp/src/commonMain/kotlin/org/example/graphqlconf25/ui/screens/ConferenceScreen.kt:302-306 | when both strings contain `T`, changing the date part of `end` does not change the formatted text |
| ConferenceScreen.FormatSessionTime | composeApp/src/commonMain/kotlin/org/example/graphqlconf25/ui/screens/ConferenceScreen.kt:293-307 | this file's split-based copy equals the shared definition: `start - end` when either string lacks `T`, otherwise `date, startClock - endClock` |
| SessionDetailsScreen.FormatSessionTime | composeApp/src/commonMain/kotlin/org/example/graphqlconf25/ui/screens/SessionDetailsScreen.kt:259-273 | this file's copy equals the same shared definition |
| SpeakerDetailsScreen.FormatSessionTime | composeApp/src/commonMain/kotlin/org/example/graphqlconf25/ui/screens/SpeakerDetailsScreen.kt:74-88 | this file's copy equals the same shared definition |
| Repository.ListSpeakerToSpeaker | composeApp/src/commonMain/kotlin/org/example/graphqlconf25/data/ConferenceRepository.kt:78-90 | the sessions-list speaker projects back to its query record (username, name and avatar copied), and company, position, about, location and url are `""` and years is `[]` |
| Repository.DetailSpeakerToSpeaker | composeApp/src/commonMain/kotlin/org/example/graphqlconf25/data/ConferenceRepository.kt:92-104 | the session-details speaker projects back to its record (eight fields copied), and years is `[]` |
| Repository.ProfileSpeakerToSpeaker | composeApp/src/commonMain/kotlin/org/example/graphqlconf25/data/ConferenceRepository.kt:106-118 | the speakers-list speaker projects back to its record (company and position copied), and about, location and url are `""` and years is `[]` |
| Repository.FullSpeakerToSpeaker | composeApp/src/commonMain/kotlin/org/example/graphqlconf25/data/ConferenceRepository.kt:120-132 | the speaker-details speaker projects back to its record, so every field including years is copied |
| Repository.ListSpeakerRoundTrip | composeApp/src/commonMain/kotlin/org/example/graphqlconf25/data/ConferenceRepository.kt:78-90 | a speaker survives the sessions-list mapper iff its unselected fields are the placeholders |
| Repository.DetailSpeakerRoundTrip | composeApp/src/commonMain/kotlin/org/example/graphqlconf25/data/ConferenceRepository.kt:92-104 | a speaker survives the session-details mapper iff it has no years |
| Repository.ProfileSpeakerRoundTrip | composeApp/src/commonMain/kotlin/org/example/graphqlconf25/data/ConferenceRepository.kt:106-118 | a speaker survives the speakers-list mapper iff about, location, url and years are blank |
| Repository.FullSpeakerRoundTrip | composeApp/src/commonMain/kotlin/org/example/graphqlconf25/data/ConferenceRepository.kt:120-132 | the speaker-details mapper loses nothing |
| Repository.ListSessionToSession | composeApp/src/commonMain/kotlin/org/example/graphqlconf25/data/ConferenceRepository.kt:50-62 | scalar fields are copied, and speakers are mapped one by one, keeping count, order and usernames, every one a summary |
| Repository.DetailSessionToSession | composeApp/src/commonMain/kotlin/org/example/graphqlconf25/data/ConferenceRepository.kt:64-76 | scalar fields are copied, and speakers are mapped one by one, keeping count, order and usernames, none with years |
| Repository.ListSessionRoundTrip | composeApp/src/commonMain/kotlin/org/example/graphqlconf25/data/ConferenceRepository.kt:50-62 | a session survives the sessions-list mapper iff all its speakers are summaries |
| Repository.DetailSessionRoundTrip | composeApp/src/commonMain/kotlin/org/example/graphqlconf25/data/ConferenceRepository.kt:64-76 | a session survives the session-details mapper iff none of its speakers has years |
| Repository.DetailSessionSpeakers | composeApp/src/commonMain/kotlin/org/example/graphqlconf25/data/ConferenceRepository.kt:40 | a mapped session lists a username iff its query record does |
| Repository.GetSessions | composeApp/src/commonMain/kotlin/org/example/graphqlconf25/data/ConferenceRepository.kt:17-20 | null data gives `[]`, else one session per record in order, each embedded speaker a summary |
| Repository.GetSpeakers | composeApp/src/commonMain/kotlin/org/example/graphqlconf25/data/ConferenceRepository.kt:27-30 | null data gives `[]`, else one speaker per record in order, never with about, location, url or years |
| Repository.GetSessionById | composeApp/src/commonMain/kotlin/org/example/graphqlconf25/data/ConferenceRepository.kt:22-25 | the result has the requested id; it is null iff data is null or no record has that id; otherwise it is the mapped first record with that id |
| Repository.GetSpeakerByUsername | composeApp/src/commonMain/kotlin/org/example/graphqlconf25/data/ConferenceRepository.kt:32-35 | the result has the requested username; it is null iff data is null or no record has it; otherwise it is the first such record, years included |
| Repository.GetSessionsForSpeaker | composeApp/src/commonMain/kotlin/org/example/graphqlconf25/data/ConferenceRepository.kt:37-42 | every result lists the username and is the mapping of an input record, every input record listing it is in the result mapped, and the result is empty iff data is null or no record lists it |
| Repository.SessionsForSpeakerOrder | composeApp/src/commonMain/kotlin/org/example/graphqlconf25/data/ConferenceRepository.kt:37-42 | the filter preserves order: the result for `a + b` is the result for `a` followed by the result for `b` |
| Repository.SessionsForSpeakerExample | composeApp/src/commonMain/kotlin/org/example/graphqlconf25/data/ConferenceRepository.kt:37-42 | sessions `s1` (speaker `ada`) and `s2` (no speakers) give exactly `[s1]` for `ada` |
| Repository.SessionsForSpeakerSingle | composeApp/src/commonMain/kotlin/org/example/graphqlconf25/data/ConferenceRepository.kt:37-42 | a single fetched session gives itself, mapped, when it lists the speaker, and nothing otherwise |
| Repository.SessionsForSpeakerIsFilter | composeApp/src/commonMain/kotlin/org/example/graphqlconf25/data/ConferenceRepository.kt:37-42 | on fetched data the result is exactly the in-order filter of the sessions that list the speaker, each mapped once |
| Repository.GetTimezone | composeApp/src/commonMain/kotlin/org/example/graphqlconf25/data/ConferenceRepository.kt:44-47 | the timezone is always `"UTC"` |
| SessionDetailsViewModel.InitialState | composeApp/src/commonMain/kotlin/org/example/graphqlconf25/ui/SessionDetailsViewModel.kt:64-68 | the initial state is not loading and has no session and no error |
| SessionDetailsViewModel.BeginLoad | composeApp/src/commonMain/kotlin/org/example/graphqlconf25/ui/SessionDetailsViewModel.kt:28 | starting a load sets isLoading and leaves session and error unchanged |
| SessionDetailsViewModel.LoadSession | composeApp/src/commonMain/kotlin/org/example/graphqlconf25/ui/SessionDetailsViewModel.kt:25-57 | if found, session is set and error cleared; if not found, error is "Session not found"; on an exception, error is the message or "Unknown error"; in the last two cases the session is kept; isLoading ends false |
| SessionDetailsViewModel.Create | composeApp/src/commonMain/kotlin/org/example/graphqlconf25/ui/SessionDetailsViewModel.kt:21-23 | after `init`, the view model keeps its id, is valid and not loading; a returned fetch shows the looked-up session (or "Session not found"), an exception shows no session and the exception's text, and there is an error exactly when there is no session |
| SessionDetailsViewModel.RefreshData | composeApp/src/commonMain/kotlin/org/example/graphqlconf25/ui/SessionDetailsViewModel.kt:59-61 | refresh is the same load step |
| SessionDetailsViewModel.LoadKeepsValid | composeApp/src/commonMain/kotlin/org/example/graphqlconf25/ui/SessionDetailsViewModel.kt:30-39 | a shown session always has the constructor's sessionId, across both updates of a load |
| SessionDetailsViewModel.ErrorIffNotFound | composeApp/src/commonMain/kotlin/org/example/graphqlconf25/ui/SessionDetailsViewModel.kt:32-54 | after a load the error is null iff the fetch returned and the id was found |
| SessionDetailsViewModel.SessionNeverLost | composeApp/src/commonMain/kotlin/org/example/graphqlconf25/ui/SessionDetailsViewModel.kt:40-54 | once a session is shown, no later load removes it |
| SessionDetailsViewModel.LoadIdempotent | composeApp/src/commonMain/kotlin/org/example/graphqlconf25/ui/SessionDetailsViewModel.kt:25-57 | loading twice with the same response equals loading once |
| SpeakerDetailsViewModel.InitialState | composeApp/src/commonMain/kotlin/org/example/graphqlconf25/ui/SpeakerDetailsViewModel.kt:69-74 | the initial state is not loading and has no speaker, no sessions and no error |
| SpeakerDetailsViewModel.BeginLoad | composeApp/src/commonMain/kotlin/org/example/graphqlconf25/ui/SpeakerDetailsViewModel.kt:29 | starting a load changes only isLoading, which becomes true |
| SpeakerDetailsViewModel.LoadSpeaker | composeApp/src/commonMain/kotlin/org/example/graphqlconf25/ui/SpeakerDetailsViewModel.kt:26-62 | on success the speaker is set, sessions are that username's sessions, and error is cleared; otherwise both data fields are kept and error is "Speaker not found", the message or "Unknown error" |
| SpeakerDetailsViewModel.Create | composeApp/src/commonMain/kotlin/org/example/graphqlconf25/ui/SpeakerDetailsViewModel.kt:22-24 | after `init`, the view model is valid and not loading; when both fetches return and the speaker is found it shows that speaker and exactly its sessions, otherwise no speaker and no sessions; there is an error exactly when there is no speaker |
| SpeakerDetailsViewModel.RefreshData | composeApp/src/commonMain/kotlin/org/example/graphqlconf25/ui/SpeakerDetailsViewModel.kt:64-66 | refresh is the same load step |
| SpeakerDetailsViewModel.LoadKeepsValid | composeApp/src/commonMain/kotlin/org/example/graphqlconf25/ui/SpeakerDetailsViewModel.kt:33-44 | a shown speaker has the constructor's username and every listed session features it, and without a speaker there are no sessions; both updates keep this |
| SpeakerDetailsViewModel.SessionsFetchSkipped | composeApp/src/commonMain/kotlin/org/example/graphqlconf25/ui/SpeakerDetailsViewModel.kt:45-59 | when the speaker is missing or its fetch throws, the sessions fetch's outcome cannot affect the state |
| SpeakerDetailsViewModel.LoadedYears | composeApp/src/commonMain/kotlin/org/example/graphqlconf25/ui/SpeakerDetailsViewModel.kt:30-44 | a found speaker shows the years of the first record with that username |
| SpeakerDetailsViewModel.LoadIdempotent | composeApp/src/commonMain/kotlin/org/example/graphqlconf25/ui/SpeakerDetailsViewModel.kt:26-62 | loading twice with the same responses equals loading once |
| ConferenceViewModel.InitialState | composeApp/src/commonMain/kotlin/org/example/graphqlconf25/ui/ConferenceViewModel.kt:57-62 | the initial state is not loading and has empty lists and no error |
| ConferenceViewModel.BeginLoad | composeApp/src/commonMain/kotlin/org/example/graphqlconf25/ui/ConferenceViewModel.kt:28 | starting a load changes only isLoading, which becomes true |
| ConferenceViewModel.LoadData | composeApp/src/commonMain/kotlin/org/example/graphqlconf25/ui/ConferenceViewModel.kt:25-50 | if both fetches return, both lists are replaced and the error is cleared; if either throws, neither list changes and error is the message or "Unknown error" |
| ConferenceViewModel.Create | composeApp/src/commonMain/kotlin/org/example/graphqlconf25/ui/ConferenceViewModel.kt:21-23 | after `init`, the state is valid and not loading; when both fetches return it holds `getSessions()` and `getSpeakers()` of them with no error, otherwise both lists are empty and the error is set |
| ConferenceViewModel.RefreshData | composeApp/src/commonMain/kotlin/org/example/graphqlconf25/ui/ConferenceViewModel.kt:52-54 | refresh is the same load step |
| ConferenceViewModel.LoadKeepsValid | composeApp/src/commonMain/kotlin/org/example/graphqlconf25/ui/ConferenceViewModel.kt:30-40 | speakers in sessions are summaries and listed speakers have no about, location, url or years; both updates keep this |
| ConferenceViewModel.SpeakersFetchSkipped | composeApp/src/commonMain/kotlin/org/example/graphqlconf25/ui/ConferenceViewModel.kt:30-31 | when the sessions fetch throws, the speakers fetch's outcome cannot affect the state |
| ConferenceViewModel.LoadIdempotent | composeApp/src/commonMain/kotlin/org/example/graphqlconf25/ui/ConferenceViewModel.kt:25-50 | loading twice with the same responses equals loading once |
| Display.Shown | composeApp/src/commonMain/kotlin/org/example/graphqlconf25/ui/screens/ConferenceScreen.kt:185 | a text is shown iff it is non-empty and not `"null"`, and then unchanged |
| Display.ShownVenue | composeApp/src/commonMain/kotlin/org/example/graphqlconf25/ui/screens/ConferenceScreen.kt:235 | the venue is shown iff it is non-null, non-empty and not `"null"` |
| Display.CompanySuffix | composeApp/src/commonMain/kotlin/org/example/graphqlconf25/ui/screens/SpeakerDetailsScreen.kt:169-175 | the `" at company"` suffix appears iff the company is non-empty |
| Display.Classify | composeApp/src/commonMain/kotlin/org/example/graphqlconf25/ui/screens/ConferenceScreen.kt:168-172 | the badge is Talk iff the event type equals `talk` ignoring case, Workshop iff it equals `workshop` ignoring case, else Other |
| Display.ClassifyIgnoresCase | composeApp/src/commonMain/kotlin/org/example/graphqlconf25/ui/screens/SpeakerDetailsScreen.kt:319-323 | event types that differ only in letter case get the same badge |
| ConferenceScreen.SessionItem | composeApp/src/commonMain/kotlin/org/example/graphqlconf25/ui/screens/ConferenceScreen.kt:142-290 | a click passes the session id; title and description are shown as they are; the badge class is given; subtype and venue appear iff presentable, and then as the session's own text; the speakers row appears iff there are speakers, and its chips pass the speakers' usernames in order |
| ConferenceScreen.SpeakerItem | composeApp/src/commonMain/kotlin/org/example/graphqlconf25/ui/screens/ConferenceScreen.kt:325-416 | a click passes the username; name and position are the speaker's own; the suffix appears iff there is a company and is then `" at "` plus the company; the location appears iff presentable and is then the speaker's own |
| ConferenceScreen.Screen | composeApp/src/commonMain/kotlin/org/example/graphqlconf25/ui/screens/ConferenceScreen.kt:93-120 | loading, then error, then content; tab 0 shows one card per session and tab 1 one card per speaker, even when the list is empty |
| ConferenceScreen.ListedSpeakersShowNoLocation | composeApp/src/commonMain/kotlin/org/example/graphqlconf25/ui/screens/ConferenceScreen.kt:406-412 | for a state loaded from the speakers list, no speaker card ever shows a location |
| ConferenceScreen.LoadShows | composeApp/src/commonMain/kotlin/org/example/graphqlconf25/ui/screens/ConferenceScreen.kt:93-120 | a load shows loading first, then the error for a failed sessions fetch, or one session card per fetched session |
| SessionDetailsScreen.Title | composeApp/src/commonMain/kotlin/org/example/graphqlconf25/ui/screens/SessionDetailsScreen.kt:38 | the title is the session's title if there is a session, else "Session Details" |
| SessionDetailsScreen.SessionDetails | composeApp/src/commonMain/kotlin/org/example/graphqlconf25/ui/screens/SessionDetailsScreen.kt:66-256 | title and description are the session's own; subtype and venue appear iff presentable, and then as the session's text; one speaker card per speaker in order, each passing its username and showing its name and position, the `" at "` company suffix iff there is a company, and its location iff presentable |
| SessionDetailsScreen.Screen | composeApp/src/commonMain/kotlin/org/example/graphqlconf25/ui/screens/SessionDetailsScreen.kt:48-61 | loading, then error, then session content, else nothing |
| SessionDetailsScreen.TitleAfterLoad | composeApp/src/commonMain/kotlin/org/example/graphqlconf25/ui/screens/SessionDetailsScreen.kt:38 | after a load that finds the session, the top bar shows its title over the details; after a failed or "not found" load it keeps the earlier title (or "Session Details") over the error; starting a load leaves the title alone |
| SessionDetailsScreen.NeverBlankAfterLoad | composeApp/src/commonMain/kotlin/org/example/graphqlconf25/ui/screens/SessionDetailsScreen.kt:48-61 | the blank branch is shown before the first load only; once a load completes, the session or an error is shown |
| SpeakerDetailsScreen.Title | composeApp/src/commonMain/kotlin/org/example/graphqlconf25/ui/screens/SpeakerDetailsScreen.kt:41 | the title is the speaker's name if there is a speaker, else "Speaker Details" |
| SpeakerDetailsScreen.Card | composeApp/src/commonMain/kotlin/org/example/graphqlconf25/ui/screens/SpeakerDetailsScreen.kt:298-376 | a session card passes the session id, shows the session's title, and shows its subtype and venue iff presentable, as the session's own text |
| SpeakerDetailsScreen.SpeakerDetails | composeApp/src/commonMain/kotlin/org/example/graphqlconf25/ui/screens/SpeakerDetailsScreen.kt:90-384 | name, position and about are the speaker's own; the `" at "` company suffix appears iff there is a company; location and website appear iff presentable, as the speaker's own text; "Years Attended" appears iff there are years, holding them in order; "Sessions" appears iff there are sessions, with cards passing their ids and showing their titles in order |
| SpeakerDetailsScreen.Screen | composeApp/src/commonMain/kotlin/org/example/graphqlconf25/ui/screens/SpeakerDetailsScreen.kt:51-68 | loading, then error, then speaker content, else nothing |
| SpeakerDetailsScreen.TitleAfterLoad | composeApp/src/commonMain/kotlin/org/example/graphqlconf25/ui/screens/SpeakerDetailsScreen.kt:41 | after a successful load the top bar shows the found speaker's name over the details; after any failure it keeps the earlier name (or "Speaker Details") over the error; starting a load leaves the title alone |
| SpeakerDetailsScreen.LoadShows | composeApp/src/commonMain/kotlin/org/example/graphqlconf25/ui/screens/SpeakerDetailsScreen.kt:51-68 | from any state, a completed load shows the speaker or an error, and every session card shown leads to a session listing that speaker |

## Left out

- Apollo client construction and `execute()` (network, normalized cache) are left out. Each query's result is a parameter, and an exception is `Response.Threw`.
- A null `data` and a null list inside it are merged into one `None`. The source treats both the same way.
- Only the fields that the mappers read are kept in the query records. The GraphQL documents are not part of this model.
- `start.toString()` and `end.toString()` are taken as the identity. The custom date-time scalar is held as a string.
- Coroutines, `viewModelScope.launch` and `StateFlow` are left out. So are concurrent refreshes and stale responses that overwrite newer state. One load is modelled as two sequential updates.
- Compose layout, styling, animation, image loading (`NetworkImage`), theming and navigation are left out because they are rendering or library code. Texts shown unconditionally, such as a session's description or a speaker's about, are kept as plain fields of the session cards and the details records.
- Display.Classify: case folding covers ASCII letters only, not Kotlin's Unicode `lowercase()`.
- `uppercase()` on badge labels, `year.toString()` and the avatar content descriptions are left out because they are text rendering. Year chips hold the integers.
- `uriHandler.openUri` for a speaker's website is a platform call.
- `years` holds unbounded integers. Kotlin's 32-bit `Int` cannot overflow for calendar years.
- ConferenceScreen.Screen: the selected tab is a parameter, and the `remember` state that holds it and the tab row are layout. In the app the index is always 0 or 1: it starts at 0 and a tab click sets it to an index of the two-element tab list. `NoTab` is the case the `when` leaves without an `else`; the app never reaches it.

=== FILE: conference_screen.dfy ===
/**
 What `ConferenceScreen` shows for a `ConferenceUiState` and a selected
 tab, without layout: which branch, and for each card the texts that are
 conditional and the identifier each click passes on.
 */
module ConferenceScreen {
  import opened Optional
  import opened Text
  import opened Models
  import opened Queries
  import opened Repository
  import opened Fetching
  import opened Display
  import TimeFormat
  import opened ConferenceViewModel

  /** A clickable avatar in a session card's speakers row. */
  datatype SpeakerChip = SpeakerChip(name: string, avatar: string, onClick: string)

  /** `SessionItem`: a session card. */
  datatype SessionCard = SessionCard(
    onClick: string,
    kind: EventKind,
    subtype: Option<string>,
    title: string,
    description: string,
    time: string,
    venue: Option<string>,
    speakersRow: Option<seq<SpeakerChip>>)

  /** `SpeakerItem`: a speaker card. */
  datatype SpeakerCard = SpeakerCard(
    onClick: string,
    name: string,
    position: string,
    companySuffix: Option<string>,
    location: Option<string>)

  /** The screen body below the tab row; `NoTab` for an index outside the two tabs, which the app never sets. */
  datatype Body =
    | Loading
    | Error(message: string)
    | SessionsList(sessionCards: seq<SessionCard>)
    | SpeakersList(speakerCards: seq<SpeakerCard>)
    | NoTab

  /** This file's copy of `formatSessionTime`, written with `split` and `substringBefore`. */
  function FormatSessionTime(start: string, end: string): (r: string)
    ensures r == TimeFormat.FormatSessionTime(start, end)
  {
    var startParts := Split(start, 'T');
    var endParts := Split(end, 'T');
    if |startParts| < 2 || |endParts| < 2 then start + " - " + end
    else
      SplitSecond(start, 'T');
      SplitSecond(end, 'T');
      startParts[0] + ", " + SubstringBefore(startParts[1], '.') + " - " + SubstringBefore(endParts[1], '.')
  }

  function Chip(speaker: Speaker): SpeakerChip
  {
    SpeakerChip(speaker.name, speaker.avatar, speaker.username)
  }

  /** The identifiers the chips pass on when clicked, in order. */
  function ChipTargets(chips: seq<SpeakerChip>): seq<string>
  {
    seq(|chips|, i requires 0 <= i < |chips| => chips[i].onClick)
  }

  /**
   `SessionItem(session)`: clicking passes the session id; the subtype and
   venue appear only when presentable; the speakers row appears only when
   there are speakers, one chip per speaker in order, each passing its username.
   */
  function SessionItem(session: Session): (card: SessionCard)
    ensures card.onClick == session.id
    ensures card.kind == Classify(session.eventType)
    ensures card.subtype.Some? <==> Presentable(session.eventSubtype)
    ensures card.subtype.Some? ==> card.subtype.value == session.eventSubtype
    ensures card.venue.Some? <==> session.venue.Some? && Presentable(session.venue.value)
    ensures card.venue.Some? ==> card.venue == session.venue
    ensures card.time == TimeFormat.FormatSessionTime(session.start, session.end)
    ensures card.title == session.title && card.description == session.description
    ensures card.speakersRow.Some? <==> |session.speakers| > 0
    ensures card.speakersRow.Some? ==> ChipTargets(card.speakersRow.value) == Usernames(session.speakers)
  {
    var chips := seq(|session.speakers|, i requires 0 <= i < |session.speakers| => Chip(session.speakers[i]));
    SessionCard(
      session.id,
      Classify(session.eventType),
      Shown(session.eventSubtype),
      session.title,
      session.description,
      FormatSessionTime(session.start, session.end),
      ShownVenue(session.venue),
      if |session.speakers| > 0 then Some(chips) else None)
  }

  /**
   `SpeakerItem(speaker)`: clicking passes the username; the company suffix
   appears iff there is a company, the location iff it is presentable.
   */
  function SpeakerItem(speaker: Speaker): (card: SpeakerCard)
    ensures card.onClick == speaker.username
    ensures card.name == speaker.name && card.position == speaker.position
    ensures card.companySuffix.Some? <==> |speaker.company| > 0
    ensures card.companySuffix.Some? ==> card.companySuffix.value == " at " + speaker.company
    ensures card.location.Some? <==> Presentable(speaker.location)
    ensures card.location.Some? ==> card.location.value == speaker.location
  {
    SpeakerCard(speaker.username, speaker.name, speaker.position, CompanySuffix(speaker.company), Shown(speaker.location))
  }

  /**
   The body: loading wins over an error, an error over the lists; tab 0
   lists sessions and tab 1 speakers, one card each, even when empty.
   */
  function Screen(state: ConferenceUiState, selectedTab: int): (b: Body)
    ensures b.Loading? <==> state.isLoading
    ensures b.Error? <==> !state.isLoading && state.error.Some?
    ensures b.Error? ==> b.message == state.error.value
    ensures !state.isLoading && state.error.None? && selectedTab == 0 ==>
              b.SessionsList? && |b.sessionCards| == |state.sessions| &&
              forall i :: 0 <= i < |state.sessions| ==> b.sessionCards[i] == SessionItem(state.sessions[i])
    ensures !state.isLoading && state.error.None? && selectedTab == 1 ==>
              b.SpeakersList? && |b.speakerCards| == |state.speakers| &&
              forall i :: 0 <= i < |state.speakers| ==> b.speakerCards[i] == SpeakerItem(state.speakers[i])
    ensures b.NoTab? <==> !state.isLoading && state.error.None? && selectedTab != 0 && selectedTab != 1
  {
    if state.isLoading then Loading
    else if state.error.Some? then Error(state.error.value)
    else if selectedTab == 0 then
      SessionsList(seq(|state.sessions|, i requires 0 <= i < |state.sessions| => SessionItem(state.sessions[i])))
    else if selectedTab == 1 then
      SpeakersList(seq(|state.speakers|, i requires 0 <= i < |state.speakers| => SpeakerItem(state.speakers[i])))
    else NoTab
  }

  /**
   The speakers list never selects a location or website, so no speaker
   card on this screen ever shows a location, and the session cards'
   speakers carry no profile at all.
   */
  lemma ListedSpeakersShowNoLocation(state: ConferenceUiState, selectedTab: int)
    requires ConferenceViewModel.Valid(state)
    ensures Screen(state, selectedTab).SpeakersList? ==>
              forall i :: 0 <= i < |state.speakers| ==> Screen(state, selectedTab).speakerCards[i].location.None?
  {
  }

  /** Across one load: loading while it runs, then the lists or the error. */
  lemma LoadShows(s: ConferenceUiState, sessionsResponse: Response<Option<seq<ListSession>>>,
                  speakersResponse: Response<Option<seq<ProfileSpeaker>>>, selectedTab: int)
    ensures Screen(BeginLoad(s), selectedTab) == Loading
    ensures sessionsResponse.Threw? ==>
              Screen(LoadData(s, sessionsResponse, speakersResponse), selectedTab)
              == Error(ErrorText(sessionsResponse.message))
    ensures sessionsResponse.Returned? && speakersResponse.Returned? && selectedTab == 0 ==>
              |Screen(LoadData(s, sessionsResponse, speakersResponse), selectedTab).sessionCards|
              == |GetSessions(sessionsResponse.data)|
  {
  }
}

=== FILE: conference_view_model.dfy ===
/**
 `ConferenceViewModel`: loads the sessions list, then the speakers list,
 and publishes both together.
 */
module ConferenceViewModel {
  import opened Optional
  import opened Models
  import opened Queries
  import opened Repository
  import opened Fetching

  datatype ConferenceUiState = ConferenceUiState(
    isLoading: bool,
    sessions: seq<Session>,
    speakers: seq<Speaker>,
    error: Option<string>)

  /** The default UI state the flow starts from. */
  function InitialState(): (s: ConferenceUiState)
    ensures !s.isLoading && s.sessions == [] && s.speakers == [] && s.error.None?
  {
    ConferenceUiState(false, [], [], None)
  }

  /** The first update of a load: only `isLoading` changes. */
  function BeginLoad(s: ConferenceUiState): (r: ConferenceUiState)
    ensures r == s.(isLoading := true)
    ensures r.isLoading
  {
    s.(isLoading := true)
  }

  /**
   The second update. `speakersResponse` is the outcome the speakers fetch
   would have; it is consulted only once the sessions fetch has returned.
   */
  function CompleteLoad(s: ConferenceUiState, sessionsResponse: Response<Option<seq<ListSession>>>,
                        speakersResponse: Response<Option<seq<ProfileSpeaker>>>): ConferenceUiState
  {
    match sessionsResponse
    case Threw(message) => s.(isLoading := false, error := Some(ErrorText(message)))
    case Returned(sessionData) =>
      match speakersResponse
      case Threw(message) => s.(isLoading := false, error := Some(ErrorText(message)))
      case Returned(speakerData) =>
        ConferenceUiState(false, GetSessions(sessionData), GetSpeakers(speakerData), None)
  }

  /**
   `loadData()`: both lists are replaced together when both fetches
   return; if either throws, neither list changes and the error is set.
   */
  function LoadData(s: ConferenceUiState, sessionsResponse: Response<Option<seq<ListSession>>>,
                    speakersResponse: Response<Option<seq<ProfileSpeaker>>>): (r: ConferenceUiState)
    ensures !r.isLoading
    ensures sessionsResponse.Returned? && speakersResponse.Returned? ==>
              && r.sessions == GetSessions(sessionsResponse.data)
              && r.speakers == GetSpeakers(speakersResponse.data)
              && r.error.None?
    ensures sessionsResponse.Threw? ==>
              r.sessions == s.sessions && r.speakers == s.speakers &&
              r.error == Some(ErrorText(sessionsResponse.message))
    ensures sessionsResponse.Returned? && speakersResponse.Threw? ==>
              r.sessions == s.sessions && r.speakers == s.speakers &&
              r.error == Some(ErrorText(speakersResponse.message))
  {
    CompleteLoad(BeginLoad(s), sessionsResponse, speakersResponse)
  }

  /** `init { loadData() }`. */
  function Create(sessionsResponse: Response<Option<seq<ListSession>>>,
                  speakersResponse: Response<Option<seq<ProfileSpeaker>>>): (s: ConferenceUiState)
    ensures !s.isLoading && Valid(s)
    ensures s.error.None? <==> sessionsResponse.Returned? && speakersResponse.Returned?
    ensures sessionsResponse.Returned? && speakersResponse.Returned? ==>
              s.sessions == GetSessions(sessionsResponse.data) && s.speakers == GetSpeakers(speakersResponse.data)
    ensures !(sessionsResponse.Returned? && speakersResponse.Returned?) ==> s.sessions == [] && s.speakers == []
  {
    LoadData(InitialState(), sessionsResponse, speakersResponse)
  }

  /** `refreshData()` runs the same load again. */
  function RefreshData(s: ConferenceUiState, sessionsResponse: Response<Option<seq<ListSession>>>,
                       speakersResponse: Response<Option<seq<ProfileSpeaker>>>): (r: ConferenceUiState)
    ensures r == LoadData(s, sessionsResponse, speakersResponse)
  {
    LoadData(s, sessionsResponse, speakersResponse)
  }

  /**
   What the lists always satisfy: speakers embedded in sessions are
   summaries, and listed speakers carry no about, location, url or years.
   */
  predicate Valid(s: ConferenceUiState)
  {
    && (forall i, j :: 0 <= i < |s.sessions| && 0 <= j < |s.sessions[i].speakers| ==>
          SummaryShaped(s.sessions[i].speakers[j]))
    && (forall i :: 0 <= i < |s.speakers| ==> ProfileShaped(s.speakers[i]))
  }

  /** Both updates of a load keep `Valid`. */
  lemma LoadKeepsValid(s: ConferenceUiState, sessionsResponse: Response<Option<seq<ListSession>>>,
                       speakersResponse: Response<Option<seq<ProfileSpeaker>>>)
    requires Valid(s)
    ensures Valid(BeginLoad(s)) && Valid(LoadData(s, sessionsResponse, speakersResponse))
  {
  }

  /** When the sessions fetch throws, the speakers fetch is never made. */
  lemma SpeakersFetchSkipped(s: ConferenceUiState, sessionsResponse: Response<Option<seq<ListSession>>>,
                             speakers1: Response<Option<seq<ProfileSpeaker>>>,
                             speakers2: Response<Option<seq<ProfileSpeaker>>>)
    requires sessionsResponse.Threw?
    ensures LoadData(s, sessionsResponse, speakers1) == LoadData(s, sessionsResponse, speakers2)
  {
  }

  /** Loading again with the same responses changes nothing more. */
  lemma LoadIdempotent(s: ConferenceUiState, sessionsResponse: Response<Option<seq<ListSession>>>,
                       speakersResponse: Response<Option<seq<ProfileSpeaker>>>)
    ensures LoadData(LoadData(s, sessionsResponse, speakersResponse), sessionsResponse, speakersResponse)
            == LoadData(s, sessionsResponse, speakersResponse)
  {
  }
}

=== FILE: display.dfy ===
/** The visibility rules and the event-type classification shared by the screens. */
module Display {
  import opened Optional
  import opened Text

  /**
   A text field is printed only when it is non-empty and not the literal
   "null" that the API sends for some missing values.
   */
  predicate Presentable(text: string)
  {
    |text| > 0 && text != "null"
  }

  /** The field as printed, or nothing. */
  function Shown(text: string): (r: Option<string>)
    ensures r.Some? <==> Presentable(text)
    ensures r.Some? ==> r.value == text
  {
    if Presentable(text) then Some(text) else None
  }

  /** The venue as printed: it must also be non-null. */
  function ShownVenue(venue: Option<string>): (r: Option<string>)
    ensures r.Some? <==> venue.Some? && Presentable(venue.value)
    ensures r.Some? ==> r == venue
  {
    match venue
    case None => None
    case Some(v) => Shown(v)
  }

  /** The `" at company"` suffix after a speaker's position, when there is a company. */
  function CompanySuffix(company: string): (r: Option<string>)
    ensures r.Some? <==> |company| > 0
    ensures r.Some? ==> r.value == " at " + company
  {
    if |company| > 0 then Some(" at " + company) else None
  }

  /** The colour class of an event badge. */
  datatype EventKind = Talk | Workshop | Other

  /** `when (eventType.lowercase()) { "talk" -> …; "workshop" -> …; else -> … }`. */
  function Classify(eventType: string): (k: EventKind)
    ensures k == Talk <==> EqualsIgnoreCase(eventType, "talk")
    ensures k == Workshop <==> EqualsIgnoreCase(eventType, "workshop")
  {
    var t := Lowercase(eventType);
    LowercaseEqual(eventType, "talk");
    LowercaseEqual(eventType, "workshop");
    assert Lowercase("talk") == "talk";
    assert Lowercase("workshop") == "workshop";
    if t == "talk" then Talk else if t == "workshop" then Workshop else Other
  }

  /** Spellings that differ only in letter case get the same badge. */
  lemma ClassifyIgnoresCase(a: string, b: string)
    requires EqualsIgnoreCase(a, b)
    ensures Classify(a) == Classify(b)
  {
    LowercaseEqual(a, b);
  }
}

=== FILE: fetching.dfy ===
/** How a suspended repository call ends, as seen by a view model. */
module Fetching {
  import opened Optional

  /**
   The outcome of one `execute()`: it returned a value, or it threw an
   exception whose `message` may be null.
   */
  datatype Response<+T> = Returned(data: T) | Threw(message: Option<string>)

  /** The message shown for a thrown exception: `e.message ?: "Unknown error"`. */
  function ErrorText(message: Option<string>): string
  {
    message.OrElse("Unknown error")
  }
}

=== FILE: models.dfy ===
/** The two domain records every screen shows. */
module Models {
  import opened Optional

  /**
   A conference presenter, keyed by `username`. Fields a query did not
   select are held as `""` or `[]`, never as absent.
   */
  datatype Speaker = Speaker(
    username: string,
    name: string,
    company: string,
    position: string,
    about: string,
    location: string,
    url: string,
    avatar: string,
    years: seq<int>)

  /**
   A scheduled talk or workshop. `start` and `end` are kept as the opaque
   date-time strings the API sends; `venue` is the only nullable field.
   */
  datatype Session = Session(
    id: string,
    title: string,
    description: string,
    start: string,
    end: string,
    eventType: string,
    eventSubtype: string,
    venue: Option<string>,
    speakers: seq<Speaker>)

  /** The usernames of `speakers`, in order. */
  function Usernames(speakers: seq<Speaker>): seq<string>
  {
    seq(|speakers|, i requires 0 <= i < |speakers| => speakers[i].username)
  }

  /** `session.speakers.any { it.username == username }`. */
  predicate HasSpeaker(session: Session, username: string)
  {
    username in Usernames(session.speakers)
  }

  /** Data-class equality: two speakers are equal exactly when every field is. */
  lemma SpeakerEquality(a: Speaker, b: Speaker)
    ensures a == b <==>
      && a.username == b.username && a.name == b.name && a.company == b.company
      && a.position == b.position && a.about == b.about && a.location == b.location
      && a.url == b.url && a.avatar == b.avatar && a.years == b.years
  {
  }

  /** Data-class equality: two sessions are equal exactly when every field is. */
  lemma SessionEquality(a: Session, b: Session)
    ensures a == b <==>
      && a.id == b.id && a.title == b.title && a.description == b.description
      && a.start == b.start && a.end == b.end && a.eventType == b.eventType
      && a.eventSubtype == b.eventSubtype && a.venue == b.venue && a.speakers == b.speakers
  {
  }
}

=== FILE: optional.dfy ===
/** Kotlin's nullable types. */
module Optional {

  /** `T?`: `None` stands for `null`. */
  datatype Option<+T> = None | Some(value: T) {

    /** The elvis operator `this ?: default`. */
    function OrElse(default: T): (r: T)
      ensures Some? ==> r == value
      ensures None? ==> r == default
    {
      match this
      case Some(v) => v
      case None => default
    }
  }
}

=== FILE: queries.dfy ===
/**
 The typed results of the four GraphQL queries, reduced to the fields the
 repository reads. Each query selects a different subset of a speaker.
 */
module Queries {
  import opened Optional

  /** `GetSessionsQuery.Speaker`: the summary embedded in the sessions list. */
  datatype ListSpeaker = ListSpeaker(username: string, name: string, avatar: string)

  /** `GetSessionsQuery.Session`. */
  datatype ListSession = ListSession(
    id: string,
    title: string,
    description: string,
    start: string,
    end: string,
    eventType: string,
    eventSubtype: string,
    venue: Option<string>,
    speakers: seq<ListSpeaker>)

  /** `GetSessionDetailsQuery.Speaker`: every profile field except `years`. */
  datatype DetailSpeaker = DetailSpeaker(
    username: string,
    name: string,
    company: string,
    position: string,
    about: string,
    location: string,
    url: string,
    avatar: string)

  /** `GetSessionDetailsQuery.Session`. */
  datatype DetailSession = DetailSession(
    id: string,
    title: string,
    description: string,
    start: string,
    end: string,
    eventType: string,
    eventSubtype: string,
    venue: Option<string>,
    speakers: seq<DetailSpeaker>)

  /** `GetSpeakersQuery.Speaker`: the speakers list. */
  datatype ProfileSpeaker = ProfileSpeaker(
    username: string,
    name: string,
    company: string,
    position: string,
    avatar: string)

  /** `GetSpeakerDetailsQuery.Speaker`: every field, `years` included. */
  datatype FullSpeaker = FullSpeaker(
    username: string,
    name: string,
    company: string,
    position: string,
    about: string,
    location: string,
    url: string,
    avatar: string,
    years: seq<int>)

  /** `session.speakers.any { it.username == username }` on a details-query session. */
  predicate Features(session: DetailSession, username: string)
  {
    exists i :: 0 <= i < |session.speakers| && session.speakers[i].username == username
  }
}

=== FILE: repository.dfy ===
/**
 What `ConferenceRepository` does with a query result once `execute()` has
 returned. Each query's `data?.sessions` / `data?.speakers` arrives as an
 optional sequence; `None` stands for a null `data` or a null list.
 */
module Repository {
  import opened Optional
  import opened Seqs
  import opened Models
  import opened Queries

  // ----- What each query can say about a speaker -----

  /** The sessions list selects only username, name and avatar; the rest are placeholders. */
  predicate SummaryShaped(sp: Speaker)
  {
    && sp.company == "" && sp.position == "" && sp.about == ""
    && sp.location == "" && sp.url == "" && sp.years == []
  }

  /** The speakers list has no about, location, url or years. */
  predicate ProfileShaped(sp: Speaker)
  {
    sp.about == "" && sp.location == "" && sp.url == "" && sp.years == []
  }

  /** The session-details query has every speaker field but `years`. */
  predicate DetailShaped(sp: Speaker)
  {
    sp.years == []
  }

  function AsListSpeaker(sp: Speaker): ListSpeaker
  {
    ListSpeaker(sp.username, sp.name, sp.avatar)
  }

  function AsProfileSpeaker(sp: Speaker): ProfileSpeaker
  {
    ProfileSpeaker(sp.username, sp.name, sp.company, sp.position, sp.avatar)
  }

  function AsDetailSpeaker(sp: Speaker): DetailSpeaker
  {
    DetailSpeaker(sp.username, sp.name, sp.company, sp.position, sp.about, sp.location, sp.url, sp.avatar)
  }

  function AsFullSpeaker(sp: Speaker): FullSpeaker
  {
    FullSpeaker(sp.username, sp.name, sp.company, sp.position, sp.about, sp.location, sp.url, sp.avatar, sp.years)
  }

  function AsListSession(s: Session): ListSession
  {
    ListSession(s.id, s.title, s.description, s.start, s.end, s.eventType, s.eventSubtype, s.venue,
                Map(s.speakers, AsListSpeaker))
  }

  function AsDetailSession(s: Session): DetailSession
  {
    DetailSession(s.id, s.title, s.description, s.start, s.end, s.eventType, s.eventSubtype, s.venue,
                  Map(s.speakers, AsDetailSpeaker))
  }

  // ----- The four speaker mappers -----

  /** `GetSessionsQuery.Speaker.toSpeaker()`: keeps what the query has, blanks the rest. */
  function ListSpeakerToSpeaker(q: ListSpeaker): (sp: Speaker)
    ensures AsListSpeaker(sp) == q
    ensures SummaryShaped(sp)
  {
    Speaker(q.username, q.name, "", "", "", "", "", q.avatar, [])
  }

  /** `GetSessionDetailsQuery.Speaker.toSpeaker()`: everything but `years`. */
  function DetailSpeakerToSpeaker(q: DetailSpeaker): (sp: Speaker)
    ensures AsDetailSpeaker(sp) == q
    ensures DetailShaped(sp)
  {
    Speaker(q.username, q.name, q.company, q.position, q.about, q.location, q.url, q.avatar, [])
  }

  /** `GetSpeakersQuery.Speaker.toSpeaker()`: company and position kept; about, location, url, years blank. */
  function ProfileSpeakerToSpeaker(q: ProfileSpeaker): (sp: Speaker)
    ensures AsProfileSpeaker(sp) == q
    ensures ProfileShaped(sp)
  {
    Speaker(q.username, q.name, q.company, q.position, "", "", "", q.avatar, [])
  }

  /** `GetSpeakerDetailsQuery.Speaker.toSpeaker()`: every field, `years` included. */
  function FullSpeakerToSpeaker(q: FullSpeaker): (sp: Speaker)
    ensures AsFullSpeaker(sp) == q
  {
    Speaker(q.username, q.name, q.company, q.position, q.about, q.location, q.url, q.avatar, q.years)
  }

  /** A speaker survives the sessions-list query exactly when it is summary-shaped. */
  lemma ListSpeakerRoundTrip(sp: Speaker)
    ensures ListSpeakerToSpeaker(AsListSpeaker(sp)) == sp <==> SummaryShaped(sp)
  {
  }

  /** A speaker survives the session-details query exactly when it has no years. */
  lemma DetailSpeakerRoundTrip(sp: Speaker)
    ensures DetailSpeakerToSpeaker(AsDetailSpeaker(sp)) == sp <==> DetailShaped(sp)
  {
  }

  /** A speaker survives the speakers-list query exactly when it is profile-shaped. */
  lemma ProfileSpeakerRoundTrip(sp: Speaker)
    ensures ProfileSpeakerToSpeaker(AsProfileSpeaker(sp)) == sp <==> ProfileShaped(sp)
  {
  }

  /** The speaker-details query loses nothing. */
  lemma FullSpeakerRoundTrip(sp: Speaker)
    ensures FullSpeakerToSpeaker(AsFullSpeaker(sp)) == sp
  {
  }

  // ----- The two session mappers -----

  /**
   `GetSessionsQuery.Session.toSession()`: scalar fields copied, speakers
   mapped one by one, so their count, order and usernames are kept.
   */
  function ListSessionToSession(q: ListSession): (s: Session)
    ensures AsListSession(s) == q
    ensures |s.speakers| == |q.speakers|
    ensures forall i :: 0 <= i < |q.speakers| ==>
              s.speakers[i].username == q.speakers[i].username && SummaryShaped(s.speakers[i])
  {
    var s := Session(q.id, q.title, q.description, q.start, q.end, q.eventType, q.eventSubtype, q.venue,
                     Map(q.speakers, ListSpeakerToSpeaker));
    assert Map(s.speakers, AsListSpeaker) == q.speakers;
    s
  }

  /**
   `GetSessionDetailsQuery.Session.toSession()`: scalar fields copied,
   speakers mapped one by one with their full profiles.
   */
  function DetailSessionToSession(q: DetailSession): (s: Session)
    ensures AsDetailSession(s) == q
    ensures |s.speakers| == |q.speakers|
    ensures forall i :: 0 <= i < |q.speakers| ==>
              s.speakers[i].username == q.speakers[i].username && DetailShaped(s.speakers[i])
  {
    var s := Session(q.id, q.title, q.description, q.start, q.end, q.eventType, q.eventSubtype, q.venue,
                     Map(q.speakers, DetailSpeakerToSpeaker));
    assert Map(s.speakers, AsDetailSpeaker) == q.speakers;
    s
  }

  /** A session survives the sessions-list query exactly when all its speakers are summaries. */
  lemma ListSessionRoundTrip(s: Session)
    ensures ListSessionToSession(AsListSession(s)) == s <==>
            forall i :: 0 <= i < |s.speakers| ==> SummaryShaped(s.speakers[i])
  {
    var back := ListSessionToSession(AsListSession(s));
    if forall i :: 0 <= i < |s.speakers| ==> SummaryShaped(s.speakers[i]) {
      assert forall i :: 0 <= i < |s.speakers| ==> back.speakers[i] == s.speakers[i];
    }
  }

  /** A session survives the session-details query exactly when no speaker has years. */
  lemma DetailSessionRoundTrip(s: Session)
    ensures DetailSessionToSession(AsDetailSession(s)) == s <==>
            forall i :: 0 <= i < |s.speakers| ==> DetailShaped(s.speakers[i])
  {
    var back := DetailSessionToSession(AsDetailSession(s));
    if forall i :: 0 <= i < |s.speakers| ==> DetailShaped(s.speakers[i]) {
      assert forall i :: 0 <= i < |s.speakers| ==> back.speakers[i] == s.speakers[i];
    }
  }

  /** A mapped details-query session features the same speakers as its record. */
  lemma DetailSessionSpeakers(q: DetailSession, username: string)
    ensures HasSpeaker(DetailSessionToSession(q), username) <==> Features(q, username)
  {
    var s := DetailSessionToSession(q);
    if Features(q, username) {
      var i :| 0 <= i < |q.speakers| && q.speakers[i].username == username;
      assert Usernames(s.speakers)[i] == username;
    }
  }

  // ----- The repository operations -----

  /** `getSessions()`: every session of the list, with summary speakers; empty when data is null. */
  function GetSessions(data: Option<seq<ListSession>>): (r: seq<Session>)
    ensures data.None? ==> r == []
    ensures data.Some? ==> |r| == |data.value|
    ensures data.Some? ==> forall i :: 0 <= i < |r| ==> AsListSession(r[i]) == data.value[i]
    ensures forall i, j :: 0 <= i < |r| && 0 <= j < |r[i].speakers| ==> SummaryShaped(r[i].speakers[j])
  {
    match data
    case None => []
    case Some(sessions) => Map(sessions, ListSessionToSession)
  }

  /** `getSpeakers()`: every speaker of the list, never with years; empty when data is null. */
  function GetSpeakers(data: Option<seq<ProfileSpeaker>>): (r: seq<Speaker>)
    ensures data.None? ==> r == []
    ensures data.Some? ==> |r| == |data.value|
    ensures data.Some? ==> forall i :: 0 <= i < |r| ==> AsProfileSpeaker(r[i]) == data.value[i]
    ensures forall i :: 0 <= i < |r| ==> ProfileShaped(r[i])
  {
    match data
    case None => []
    case Some(speakers) => Map(speakers, ProfileSpeakerToSpeaker)
  }

  /**
   `getSessionById(id)`: the first fetched session with that id, mapped; null
   when none matches or data is null.
   */
  function GetSessionById(data: Option<seq<DetailSession>>, id: string): (r: Option<Session>)
    ensures r.Some? ==> r.value.id == id
    ensures r.None? <==> data.None? || forall i :: 0 <= i < |data.value| ==> data.value[i].id != id
    ensures r.Some? ==>
              && data.Some?
              && exists k :: 0 <= k < |data.value| && r.value == DetailSessionToSession(data.value[k]) &&
                             forall i :: 0 <= i < k ==> data.value[i].id != id
  {
    match data
    case None => None
    case Some(sessions) =>
      match Find(sessions, (q: DetailSession) => q.id == id)
      case None => None
      case Some(q) => Some(DetailSessionToSession(q))
  }

  /**
   `getSpeakerByUsername(username)`: the first fetched speaker with that
   username, with every field including `years`; null when none matches.
   */
  function GetSpeakerByUsername(data: Option<seq<FullSpeaker>>, username: string): (r: Option<Speaker>)
    ensures r.Some? ==> r.value.username == username
    ensures r.None? <==> data.None? || forall i :: 0 <= i < |data.value| ==> data.value[i].username != username
    ensures r.Some? ==>
              && data.Some?
              && exists k :: 0 <= k < |data.value| && data.value[k] == AsFullSpeaker(r.value) &&
                             forall i :: 0 <= i < k ==> data.value[i].username != username
  {
    match data
    case None => None
    case Some(speakers) =>
      match Find(speakers, (q: FullSpeaker) => q.username == username)
      case None => None
      case Some(q) => Some(FullSpeakerToSpeaker(q))
  }

  /** The filter `getSessionsForSpeaker` applies: `session.speakers.any { it.username == username }`. */
  function Mentions(username: string): DetailSession -> bool
  {
    (q: DetailSession) => Any(q.speakers, (sp: DetailSpeaker) => sp.username == username)
  }

  /**
   `getSessionsForSpeaker(username)`: exactly the fetched sessions that list
   the speaker, mapped; empty for an unknown username or null data.
   */
  function GetSessionsForSpeaker(data: Option<seq<DetailSession>>, username: string): (r: seq<Session>)
    ensures forall i :: 0 <= i < |r| ==> HasSpeaker(r[i], username)
    ensures data.Some? ==> forall i :: 0 <= i < |r| ==>
              exists q :: q in data.value && r[i] == DetailSessionToSession(q)
    ensures data.Some? ==> forall i :: 0 <= i < |data.value| && Features(data.value[i], username) ==>
              DetailSessionToSession(data.value[i]) in r
    ensures r == [] <==> data.None? || forall i :: 0 <= i < |data.value| ==> !Features(data.value[i], username)
  {
    match data
    case None => []
    case Some(sessions) =>
      var kept := Filter(sessions, Mentions(username));
      var r := Map(kept, DetailSessionToSession);
      MentionsMeansFeatures(sessions, username);
      MappedSessionsFeature(kept, username);
      FilteredSessionsKept(sessions, username);
      r
  }

  lemma MentionsMeansFeatures(sessions: seq<DetailSession>, username: string)
    ensures forall i :: 0 <= i < |sessions| ==> (Mentions(username)(sessions[i]) <==> Features(sessions[i], username))
  {
  }

  lemma MappedSessionsFeature(kept: seq<DetailSession>, username: string)
    requires forall i :: 0 <= i < |kept| ==> Mentions(username)(kept[i])
    ensures forall i :: 0 <= i < |kept| ==> HasSpeaker(Map(kept, DetailSessionToSession)[i], username)
  {
    forall i | 0 <= i < |kept|
      ensures HasSpeaker(Map(kept, DetailSessionToSession)[i], username)
    {
      DetailSessionSpeakers(kept[i], username);
    }
  }

  lemma FilteredSessionsKept(sessions: seq<DetailSession>, username: string)
    ensures forall i :: 0 <= i < |sessions| && Features(sessions[i], username) ==>
              DetailSessionToSession(sessions[i]) in Map(Filter(sessions, Mentions(username)), DetailSessionToSession)
  {
    var kept := Filter(sessions, Mentions(username));
    forall i | 0 <= i < |sessions| && Features(sessions[i], username)
      ensures DetailSessionToSession(sessions[i]) in Map(kept, DetailSessionToSession)
    {
      assert Mentions(username)(sessions[i]);
      MapContains(kept, DetailSessionToSession, sessions[i]);
    }
  }

  /** The filter keeps relative order: fetching `a + b` gives the results for `a`, then those for `b`. */
  lemma SessionsForSpeakerOrder(a: seq<DetailSession>, b: seq<DetailSession>, username: string)
    ensures GetSessionsForSpeaker(Some(a + b), username)
            == GetSessionsForSpeaker(Some(a), username) + GetSessionsForSpeaker(Some(b), username)
  {
    FilterAppend(a, b, Mentions(username));
    MapAppend(Filter(a, Mentions(username)), Filter(b, Mentions(username)), DetailSessionToSession);
  }

  /** One fetched session is kept, mapped, exactly when it lists the speaker. */
  lemma SessionsForSpeakerSingle(q: DetailSession, username: string)
    ensures GetSessionsForSpeaker(Some([q]), username)
            == if Features(q, username) then [DetailSessionToSession(q)] else []
  {
    MentionsMeansFeatures([q], username);
    assert [q][1..] == [];
  }

  /**
   An independent reference for `getSessionsForSpeaker` on fetched data:
   walk the list, keeping each session that lists the speaker, mapped.
   */
  function SessionsFeaturing(sessions: seq<DetailSession>, username: string): seq<Session>
  {
    if sessions == [] then []
    else
      (if Features(sessions[0], username) then [DetailSessionToSession(sessions[0])] else [])
      + SessionsFeaturing(sessions[1..], username)
  }

  /** `getSessionsForSpeaker` is exactly the in-order filter, one copy per matching session. */
  lemma {:induction false} SessionsForSpeakerIsFilter(sessions: seq<DetailSession>, username: string)
    ensures GetSessionsForSpeaker(Some(sessions), username) == SessionsFeaturing(sessions, username)
    decreases |sessions|
  {
    if sessions != [] {
      assert sessions == [sessions[0]] + sessions[1..];
      SessionsForSpeakerOrder([sessions[0]], sessions[1..], username);
      SessionsForSpeakerSingle(sessions[0], username);
      SessionsForSpeakerIsFilter(sessions[1..], username);
    }
  }

  /** Two fetched sessions, only the first with speaker "ada": the filter keeps just that one. */
  lemma SessionsForSpeakerExample()
    ensures var ada := DetailSpeaker("ada", "Ada", "", "", "", "", "", "");
            var s1 := DetailSession("s1", "", "", "", "", "talk", "", None, [ada]);
            var s2 := DetailSession("s2", "", "", "", "", "talk", "", None, []);
            GetSessionsForSpeaker(Some([s1, s2]), "ada") == [DetailSessionToSession(s1)]
  {
    var ada := DetailSpeaker("ada", "Ada", "", "", "", "", "", "");
    var s1 := DetailSession("s1", "", "", "", "", "talk", "", None, [ada]);
    var s2 := DetailSession("s2", "", "", "", "", "talk", "", None, []);
    assert Mentions("ada")(s1);
    assert !Mentions("ada")(s2);
    assert [s1, s2][1..] == [s2];
    assert Filter([s1, s2], Mentions("ada")) == [s1];
  }

  /** `getTimezone()` is a fixed placeholder. */
  function GetTimezone(): (tz: string)
    ensures tz == "UTC"
  {
    "UTC"
  }
}

=== FILE: seqs.dfy ===
/**
 The Kotlin collection operations the repository relies on (`map`, `filter`,
 `any`, `find`), over immutable sequences.
 */
module Seqs {
  import opened Optional

  /** `xs.map(f)`: one result per element, in order. */
  function Map<A, B>(xs: seq<A>, f: A -> B): (r: seq<B>)
    ensures |r| == |xs|
    ensures forall i :: 0 <= i < |xs| ==> r[i] == f(xs[i])
  {
    if |xs| == 0 then [] else [f(xs[0])] + Map(xs[1..], f)
  }

  /** `xs.filter(p)`: the elements satisfying `p`, in their original order. */
  function Filter<T>(xs: seq<T>, p: T -> bool): (r: seq<T>)
    ensures |r| <= |xs|
    ensures forall i :: 0 <= i < |r| ==> p(r[i]) && r[i] in xs
    ensures forall i :: 0 <= i < |xs| && p(xs[i]) ==> xs[i] in r
    ensures r == [] <==> forall i :: 0 <= i < |xs| ==> !p(xs[i])
  {
    if |xs| == 0 then []
    else if p(xs[0]) then [xs[0]] + Filter(xs[1..], p)
    else Filter(xs[1..], p)
  }

  /** `xs.any(p)`. */
  function Any<T>(xs: seq<T>, p: T -> bool): (b: bool)
    ensures b <==> exists i :: 0 <= i < |xs| && p(xs[i])
  {
    if |xs| == 0 then false else p(xs[0]) || Any(xs[1..], p)
  }

  /** `xs.indexOfFirst(p)`: the position of the first element satisfying `p`, or -1. */
  function IndexOfFirst<T>(xs: seq<T>, p: T -> bool): (k: int)
    ensures -1 <= k < |xs|
    ensures k == -1 <==> forall i :: 0 <= i < |xs| ==> !p(xs[i])
    ensures 0 <= k ==> p(xs[k]) && forall i :: 0 <= i < k ==> !p(xs[i])
  {
    if |xs| == 0 then -1
    else if p(xs[0]) then 0
    else
      var k := IndexOfFirst(xs[1..], p);
      if k == -1 then -1 else k + 1
  }

  /** `xs.find(p)`: the first element satisfying `p`, or null. */
  function Find<T>(xs: seq<T>, p: T -> bool): (r: Option<T>)
    ensures r.None? <==> forall i :: 0 <= i < |xs| ==> !p(xs[i])
    ensures r.Some? ==> var k := IndexOfFirst(xs, p); 0 <= k && r.value == xs[k]
  {
    var k := IndexOfFirst(xs, p);
    if k < 0 then None else Some(xs[k])
  }

  /** Filtering distributes over concatenation, so it keeps relative order. */
  lemma {:induction false} FilterAppend<T>(xs: seq<T>, ys: seq<T>, p: T -> bool)
    ensures Filter(xs + ys, p) == Filter(xs, p) + Filter(ys, p)
  {
    if |xs| == 0 {
      assert xs + ys == ys;
    } else {
      assert (xs + ys)[1..] == xs[1..] + ys;
      FilterAppend(xs[1..], ys, p);
    }
  }

  /** Mapping keeps every element's image. */
  lemma MapContains<A, B>(xs: seq<A>, f: A -> B, x: A)
    requires x in xs
    ensures f(x) in Map(xs, f)
  {
    var i :| 0 <= i < |xs| && xs[i] == x;
    assert Map(xs, f)[i] == f(x);
  }

  /** Mapping distributes over concatenation. */
  lemma MapAppend<A, B>(xs: seq<A>, ys: seq<A>, f: A -> B)
    ensures Map(xs + ys, f) == Map(xs, f) + Map(ys, f)
  {
  }
}

=== FILE: session_details_screen.dfy ===
/**
 What `SessionDetailsScreen` shows for a `SessionDetailsUiState`, without
 layout: the title, which branch, and the conditional texts and click
 targets of the details.
 */
module SessionDetailsScreen {
  import opened Optional
  import opened Text
  import opened Models
  import opened Queries
  import opened Fetching
  import opened Display
  import TimeFormat
  import Repository
  import opened SessionDetailsViewModel

  /** A speaker card under "Speakers". */
  datatype SpeakerCard = SpeakerCard(
    onClick: string,
    name: string,
    position: string,
    companySuffix: Option<string>,
    location: Option<string>)

  /** `SessionDetails(session)`. */
  datatype Details = Details(
    title: string,
    kind: EventKind,
    subtype: Option<string>,
    time: string,
    venue: Option<string>,
    description: string,
    speakerCards: seq<SpeakerCard>)

  /** The screen body; `Blank` when no branch of the `when` applies. */
  datatype Body = Loading | Error(message: string) | Content(details: Details) | Blank

  /** This file's copy of `formatSessionTime`, written with `split` and `substringBefore`. */
  function FormatSessionTime(start: string, end: string): (r: string)
    ensures r == TimeFormat.FormatSessionTime(start, end)
  {
    var startParts := Split(start, 'T');
    var endParts := Split(end, 'T');
    if |startParts| < 2 || |endParts| < 2 then start + " - " + end
    else
      SplitSecond(start, 'T');
      SplitSecond(end, 'T');
      startParts[0] + ", " + SubstringBefore(startParts[1], '.') + " - " + SubstringBefore(endParts[1], '.')
  }

  /** The top bar: the session's title once there is one. */
  function Title(state: SessionDetailsUiState): (title: string)
    ensures state.session.Some? ==> title == state.session.value.title
    ensures state.session.None? ==> title == "Session Details"
  {
    match state.session
    case Some(session) => session.title
    case None => "Session Details"
  }

  function Card(speaker: Speaker): SpeakerCard
  {
    SpeakerCard(speaker.username, speaker.name, speaker.position, CompanySuffix(speaker.company), Shown(speaker.location))
  }

  /**
   `SessionDetails(session)`: one speaker card per speaker in order, each
   passing its username; subtype, venue and each speaker's location appear
   only when presentable.
   */
  function SessionDetails(session: Session): (d: Details)
    ensures d.title == session.title && d.description == session.description
    ensures d.kind == Classify(session.eventType)
    ensures d.subtype.Some? <==> Presentable(session.eventSubtype)
    ensures d.subtype.Some? ==> d.subtype.value == session.eventSubtype
    ensures d.venue.Some? <==> session.venue.Some? && Presentable(session.venue.value)
    ensures d.venue.Some? ==> d.venue == session.venue
    ensures d.time == TimeFormat.FormatSessionTime(session.start, session.end)
    ensures |d.speakerCards| == |session.speakers|
    ensures forall i :: 0 <= i < |session.speakers| ==>
              && d.speakerCards[i].onClick == session.speakers[i].username
              && d.speakerCards[i].name == session.speakers[i].name
              && d.speakerCards[i].position == session.speakers[i].position
              && (d.speakerCards[i].companySuffix.Some? <==> |session.speakers[i].company| > 0)
              && (d.speakerCards[i].companySuffix.Some? ==>
                    d.speakerCards[i].companySuffix.value == " at " + session.speakers[i].company)
              && (d.speakerCards[i].location.Some? <==> Presentable(session.speakers[i].location))
              && (d.speakerCards[i].location.Some? ==> d.speakerCards[i].location.value == session.speakers[i].location)
  {
    Details(
      session.title,
      Classify(session.eventType),
      Shown(session.eventSubtype),
      FormatSessionTime(session.start, session.end),
      ShownVenue(session.venue),
      session.description,
      seq(|session.speakers|, i requires 0 <= i < |session.speakers| => Card(session.speakers[i])))
  }

  /** Loading wins over an error, an error over the session; otherwise nothing is shown. */
  function Screen(state: SessionDetailsUiState): (b: Body)
    ensures b.Loading? <==> state.isLoading
    ensures b.Error? <==> !state.isLoading && state.error.Some?
    ensures b.Error? ==> b.message == state.error.value
    ensures b.Content? <==> !state.isLoading && state.error.None? && state.session.Some?
    ensures b.Content? ==> b.details == SessionDetails(state.session.value)
  {
    if state.isLoading then Loading
    else if state.error.Some? then Error(state.error.value)
    else if state.session.Some? then Content(SessionDetails(state.session.value))
    else Blank
  }

  /**
   The title across a load: a found session puts its own title in the top
   bar; a failed or "not found" load shows the error below the title of the
   session kept from before.
   */
  lemma TitleAfterLoad(vm: ViewModel, response: Response<Option<seq<DetailSession>>>)
    ensures var after := LoadSession(vm, response).uiState;
            var found := if response.Returned? then Repository.GetSessionById(response.data, vm.sessionId) else None;
            && (found.Some? ==> Title(after) == found.value.title && Screen(after).Content?)
            && (found.None? ==> Title(after) == Title(vm.uiState) && Screen(after).Error?)
    ensures Title(BeginLoad(vm).uiState) == Title(vm.uiState)
  {
  }

  /**
   Every completed load shows either the session or an error: the blank
   branch is only reachable before the first load ends.
   */
  lemma NeverBlankAfterLoad(vm: ViewModel, response: Response<Option<seq<DetailSession>>>)
    ensures !Screen(LoadSession(vm, response).uiState).Blank?
    ensures Screen(BeginLoad(vm).uiState) == Loading
    ensures Screen(InitialState()) == Blank
  {
  }
}

=== FILE: session_details_view_model.dfy ===
/**
 `SessionDetailsViewModel`: loads one session by the id it was built with.
 A load is two updates of the UI state: `BeginLoad` when it starts, then
 `LoadSession`'s result once the repository call has ended.
 */
module SessionDetailsViewModel {
  import opened Optional
  import opened Models
  import opened Queries
  import opened Repository
  import opened Fetching

  datatype SessionDetailsUiState = SessionDetailsUiState(
    isLoading: bool,
    session: Option<Session>,
    error: Option<string>)

  /** The view model: the constructor's `sessionId` and the current UI state. */
  datatype ViewModel = ViewModel(sessionId: string, uiState: SessionDetailsUiState)

  /** The default UI state the flow starts from. */
  function InitialState(): (s: SessionDetailsUiState)
    ensures !s.isLoading && s.session.None? && s.error.None?
  {
    SessionDetailsUiState(false, None, None)
  }

  /** The first update of a load: only `isLoading` changes. */
  function BeginLoad(vm: ViewModel): (r: ViewModel)
    ensures r.sessionId == vm.sessionId
    ensures r.uiState.isLoading
    ensures r.uiState.session == vm.uiState.session && r.uiState.error == vm.uiState.error
  {
    vm.(uiState := vm.uiState.(isLoading := true))
  }

  /** The second update, applied to the state `BeginLoad` left. */
  function CompleteLoad(vm: ViewModel, response: Response<Option<seq<DetailSession>>>): ViewModel
  {
    match response
    case Threw(message) =>
      vm.(uiState := vm.uiState.(isLoading := false, error := Some(ErrorText(message))))
    case Returned(data) =>
      match GetSessionById(data, vm.sessionId)
      case Some(session) =>
        vm.(uiState := vm.uiState.(isLoading := false, session := Some(session), error := None))
      case None =>
        vm.(uiState := vm.uiState.(isLoading := false, error := Some("Session not found")))
  }

  /**
   `loadSession()`: a found session replaces the shown one and clears the
   error; "not found" and exceptions set the error and keep the session.
   */
  function LoadSession(vm: ViewModel, response: Response<Option<seq<DetailSession>>>): (r: ViewModel)
    ensures r.sessionId == vm.sessionId && !r.uiState.isLoading
    ensures response.Threw? ==>
              r.uiState.session == vm.uiState.session && r.uiState.error == Some(ErrorText(response.message))
    ensures response.Returned? && GetSessionById(response.data, vm.sessionId).Some? ==>
              r.uiState.session == GetSessionById(response.data, vm.sessionId) && r.uiState.error.None?
    ensures response.Returned? && GetSessionById(response.data, vm.sessionId).None? ==>
              r.uiState.session == vm.uiState.session && r.uiState.error == Some("Session not found")
  {
    CompleteLoad(BeginLoad(vm), response)
  }

  /** Whatever session is shown was looked up by the constructor's id. */
  predicate Valid(vm: ViewModel)
  {
    vm.uiState.session.Some? ==> vm.uiState.session.value.id == vm.sessionId
  }

  /** `init { loadSession() }`. */
  function Create(sessionId: string, response: Response<Option<seq<DetailSession>>>): (vm: ViewModel)
    ensures vm.sessionId == sessionId && Valid(vm) && !vm.uiState.isLoading
    ensures vm.uiState.error.None? <==> vm.uiState.session.Some?
    ensures response.Returned? ==> vm.uiState.session == GetSessionById(response.data, sessionId)
    ensures response.Returned? && vm.uiState.session.None? ==> vm.uiState.error == Some("Session not found")
    ensures response.Threw? ==> vm.uiState.session.None? && vm.uiState.error == Some(ErrorText(response.message))
  {
    LoadSession(ViewModel(sessionId, InitialState()), response)
  }

  /** `refreshData()` runs the same load again. */
  function RefreshData(vm: ViewModel, response: Response<Option<seq<DetailSession>>>): (r: ViewModel)
    ensures r == LoadSession(vm, response)
  {
    LoadSession(vm, response)
  }

  /** Both updates of a load keep `Valid`. */
  lemma LoadKeepsValid(vm: ViewModel, response: Response<Option<seq<DetailSession>>>)
    requires Valid(vm)
    ensures Valid(BeginLoad(vm)) && Valid(LoadSession(vm, response))
  {
  }

  /** The error is cleared exactly when the session was found. */
  lemma ErrorIffNotFound(vm: ViewModel, response: Response<Option<seq<DetailSession>>>)
    ensures LoadSession(vm, response).uiState.error.None? <==>
            response.Returned? && GetSessionById(response.data, vm.sessionId).Some?
  {
  }

  /** A loaded session is never lost by a later load. */
  lemma SessionNeverLost(vm: ViewModel, response: Response<Option<seq<DetailSession>>>)
    requires vm.uiState.session.Some?
    ensures LoadSession(vm, response).uiState.session.Some?
  {
  }

  /** Loading again with the same response changes nothing more. */
  lemma LoadIdempotent(vm: ViewModel, response: Response<Option<seq<DetailSession>>>)
    ensures LoadSession(LoadSession(vm, response), response) == LoadSession(vm, response)
  {
  }
}

=== FILE: speaker_details_screen.dfy ===
/**
 What `SpeakerDetailsScreen` shows for a `SpeakerDetailsUiState`, without
 layout: the title, which branch, and the sections and fields that appear
 only under a condition.
 */
module SpeakerDetailsScreen {
  import opened Optional
  import opened Text
  import opened Models
  import opened Queries
  import opened Fetching
  import opened Display
  import TimeFormat
  import Repository
  import opened SpeakerDetailsViewModel

  /** A card under "Sessions". */
  datatype SessionCard = SessionCard(
    onClick: string,
    kind: EventKind,
    subtype: Option<string>,
    title: string,
    time: string,
    venue: Option<string>)

  /** `SpeakerDetails(speaker, sessions)`; a `None` section is not shown. */
  datatype Details = Details(
    name: string,
    position: string,
    companySuffix: Option<string>,
    location: Option<string>,
    website: Option<string>,
    about: string,
    yearsAttended: Option<seq<int>>,
    sessionsSection: Option<seq<SessionCard>>)

  /** The screen body; `Blank` when no branch of the `when` applies. */
  datatype Body = Loading | Error(message: string) | Content(details: Details) | Blank

  /** This file's copy of `formatSessionTime`, written with `split` and `substringBefore`. */
  function FormatSessionTime(start: string, end: string): (r: string)
    ensures r == TimeFormat.FormatSessionTime(start, end)
  {
    var startParts := Split(start, 'T');
    var endParts := Split(end, 'T');
    if |startParts| < 2 || |endParts| < 2 then start + " - " + end
    else
      SplitSecond(start, 'T');
      SplitSecond(end, 'T');
      startParts[0] + ", " + SubstringBefore(startParts[1], '.') + " - " + SubstringBefore(endParts[1], '.')
  }

  /** The top bar: the speaker's name once there is one. */
  function Title(state: SpeakerDetailsUiState): (title: string)
    ensures state.speaker.Some? ==> title == state.speaker.value.name
    ensures state.speaker.None? ==> title == "Speaker Details"
  {
    match state.speaker
    case Some(speaker) => speaker.name
    case None => "Speaker Details"
  }

  /** A session card: clicking passes the session id. */
  function Card(session: Session): (card: SessionCard)
    ensures card.onClick == session.id && card.title == session.title
    ensures card.kind == Classify(session.eventType)
    ensures card.subtype.Some? <==> Presentable(session.eventSubtype)
    ensures card.subtype.Some? ==> card.subtype.value == session.eventSubtype
    ensures card.venue.Some? <==> session.venue.Some? && Presentable(session.venue.value)
    ensures card.venue.Some? ==> card.venue == session.venue
    ensures card.time == TimeFormat.FormatSessionTime(session.start, session.end)
  {
    SessionCard(session.id, Classify(session.eventType), Shown(session.eventSubtype), session.title,
                FormatSessionTime(session.start, session.end), ShownVenue(session.venue))
  }

  /** The identifiers the session cards pass on when clicked, in order. */
  function CardTargets(cards: seq<SessionCard>): seq<string>
  {
    seq(|cards|, i requires 0 <= i < |cards| => cards[i].onClick)
  }

  /** The ids of `sessions`, in order. */
  function Ids(sessions: seq<Session>): seq<string>
  {
    seq(|sessions|, i requires 0 <= i < |sessions| => sessions[i].id)
  }

  /**
   `SpeakerDetails(speaker, sessions)`: the company suffix iff a company;
   location and website iff presentable; "Years Attended" iff there are
   years, one chip per year in order; "Sessions" iff there are sessions,
   one card per session in order, each passing its id.
   */
  function SpeakerDetails(speaker: Speaker, sessions: seq<Session>): (d: Details)
    ensures d.name == speaker.name && d.position == speaker.position && d.about == speaker.about
    ensures d.companySuffix.Some? <==> |speaker.company| > 0
    ensures d.companySuffix.Some? ==> d.companySuffix.value == " at " + speaker.company
    ensures d.location.Some? <==> Presentable(speaker.location)
    ensures d.location.Some? ==> d.location.value == speaker.location
    ensures d.website.Some? <==> Presentable(speaker.url)
    ensures d.website.Some? ==> d.website.value == speaker.url
    ensures d.yearsAttended.Some? <==> |speaker.years| > 0
    ensures d.yearsAttended.Some? ==> d.yearsAttended.value == speaker.years
    ensures d.sessionsSection.Some? <==> |sessions| > 0
    ensures d.sessionsSection.Some? ==> CardTargets(d.sessionsSection.value) == Ids(sessions)
    ensures d.sessionsSection.Some? ==>
              forall i :: 0 <= i < |sessions| ==> d.sessionsSection.value[i].title == sessions[i].title
  {
    var cards := seq(|sessions|, i requires 0 <= i < |sessions| => Card(sessions[i]));
    Details(
      speaker.name,
      speaker.position,
      CompanySuffix(speaker.company),
      Shown(speaker.location),
      Shown(speaker.url),
      speaker.about,
      if |speaker.years| > 0 then Some(speaker.years) else None,
      if |sessions| > 0 then Some(cards) else None)
  }

  /** Loading wins over an error, an error over the speaker; otherwise nothing is shown. */
  function Screen(state: SpeakerDetailsUiState): (b: Body)
    ensures b.Loading? <==> state.isLoading
    ensures b.Error? <==> !state.isLoading && state.error.Some?
    ensures b.Error? ==> b.message == state.error.value
    ensures b.Content? <==> !state.isLoading && state.error.None? && state.speaker.Some?
    ensures b.Content? ==> b.details == SpeakerDetails(state.speaker.value, state.sessions)
  {
    if state.isLoading then Loading
    else if state.error.Some? then Error(state.error.value)
    else if state.speaker.Some? then Content(SpeakerDetails(state.speaker.value, state.sessions))
    else Blank
  }

  /**
   The title across a load: a successful load puts the found speaker's name
   in the top bar; any failure shows the error below the name of the
   speaker kept from before.
   */
  lemma TitleAfterLoad(vm: ViewModel, speakerResponse: Response<Option<seq<FullSpeaker>>>,
                       sessionsResponse: Response<Option<seq<DetailSession>>>)
    ensures var after := LoadSpeaker(vm, speakerResponse, sessionsResponse).uiState;
            && (Succeeds(vm, speakerResponse, sessionsResponse) ==>
                  Title(after) == Repository.GetSpeakerByUsername(speakerResponse.data, vm.username).value.name &&
                  Screen(after).Content?)
            && (!Succeeds(vm, speakerResponse, sessionsResponse) ==>
                  Title(after) == Title(vm.uiState) && Screen(after).Error?)
    ensures Title(BeginLoad(vm).uiState) == Title(vm.uiState)
  {
  }

  /**
   Every completed load shows either the speaker or an error; when the
   speaker is shown, each session card leads to a session that lists them.
   */
  lemma LoadShows(vm: ViewModel, speakerResponse: Response<Option<seq<FullSpeaker>>>,
                  sessionsResponse: Response<Option<seq<DetailSession>>>)
    ensures var after := LoadSpeaker(vm, speakerResponse, sessionsResponse);
            && !Screen(after.uiState).Blank?
            && (Screen(after.uiState).Content? ==>
                  forall i :: 0 <= i < |after.uiState.sessions| ==> HasSpeaker(after.uiState.sessions[i], vm.username))
    ensures Screen(BeginLoad(vm).uiState) == Loading
  {
  }
}

=== FILE: speaker_details_view_model.dfy ===
/**
 `SpeakerDetailsViewModel`: loads one speaker by the username it was built
 with, then, only if the speaker was found, that speaker's sessions. Both
 fetches complete before the second update of the UI state.
 */
module SpeakerDetailsViewModel {
  import opened Optional
  import opened Models
  import opened Queries
  import opened Repository
  import opened Fetching

  datatype SpeakerDetailsUiState = SpeakerDetailsUiState(
    isLoading: bool,
    speaker: Option<Speaker>,
    sessions: seq<Session>,
    error: Option<string>)

  /** The view model: the constructor's `username` and the current UI state. */
  datatype ViewModel = ViewModel(username: string, uiState: SpeakerDetailsUiState)

  /** The default UI state the flow starts from. */
  function InitialState(): (s: SpeakerDetailsUiState)
    ensures !s.isLoading && s.speaker.None? && s.sessions == [] && s.error.None?
  {
    SpeakerDetailsUiState(false, None, [], None)
  }

  /** The first update of a load: only `isLoading` changes. */
  function BeginLoad(vm: ViewModel): (r: ViewModel)
    ensures r.username == vm.username
    ensures r.uiState == vm.uiState.(isLoading := true)
    ensures r.uiState.isLoading
  {
    vm.(uiState := vm.uiState.(isLoading := true))
  }

  /** The state after an exception from either fetch. */
  function Failed(vm: ViewModel, message: Option<string>): ViewModel
  {
    vm.(uiState := vm.uiState.(isLoading := false, error := Some(ErrorText(message))))
  }

  /**
   The second update. `sessionsResponse` is the outcome the sessions fetch
   would have; it is consulted only once the speaker has been found.
   */
  function CompleteLoad(vm: ViewModel, speakerResponse: Response<Option<seq<FullSpeaker>>>,
                        sessionsResponse: Response<Option<seq<DetailSession>>>): ViewModel
  {
    match speakerResponse
    case Threw(message) => Failed(vm, message)
    case Returned(data) =>
      match GetSpeakerByUsername(data, vm.username)
      case None =>
        vm.(uiState := vm.uiState.(isLoading := false, error := Some("Speaker not found")))
      case Some(speaker) =>
        match sessionsResponse
        case Threw(message) => Failed(vm, message)
        case Returned(sessionData) =>
          vm.(uiState := SpeakerDetailsUiState(false, Some(speaker),
                                               GetSessionsForSpeaker(sessionData, vm.username), None))
  }

  /** Whether a load with these outcomes finds the speaker and its sessions. */
  predicate Succeeds(vm: ViewModel, speakerResponse: Response<Option<seq<FullSpeaker>>>,
                     sessionsResponse: Response<Option<seq<DetailSession>>>)
  {
    && speakerResponse.Returned?
    && GetSpeakerByUsername(speakerResponse.data, vm.username).Some?
    && sessionsResponse.Returned?
  }

  /**
   `loadSpeaker()`: on success the speaker and exactly its sessions are
   shown and the error cleared; otherwise the error is set and both data
   fields are kept.
   */
  function LoadSpeaker(vm: ViewModel, speakerResponse: Response<Option<seq<FullSpeaker>>>,
                       sessionsResponse: Response<Option<seq<DetailSession>>>): (r: ViewModel)
    ensures r.username == vm.username && !r.uiState.isLoading
    ensures Succeeds(vm, speakerResponse, sessionsResponse) ==>
              && r.uiState.speaker == GetSpeakerByUsername(speakerResponse.data, vm.username)
              && r.uiState.sessions == GetSessionsForSpeaker(sessionsResponse.data, vm.username)
              && r.uiState.error.None?
    ensures !Succeeds(vm, speakerResponse, sessionsResponse) ==>
              && r.uiState.speaker == vm.uiState.speaker
              && r.uiState.sessions == vm.uiState.sessions
              && r.uiState.error.Some?
    ensures speakerResponse.Threw? ==> r.uiState.error == Some(ErrorText(speakerResponse.message))
    ensures speakerResponse.Returned? && GetSpeakerByUsername(speakerResponse.data, vm.username).None? ==>
              r.uiState.error == Some("Speaker not found")
    ensures speakerResponse.Returned? && GetSpeakerByUsername(speakerResponse.data, vm.username).Some? &&
            sessionsResponse.Threw? ==>
              r.uiState.error == Some(ErrorText(sessionsResponse.message))
  {
    CompleteLoad(BeginLoad(vm), speakerResponse, sessionsResponse)
  }

  /** What a shown speaker and its sessions always satisfy. */
  predicate Valid(vm: ViewModel)
  {
    match vm.uiState.speaker
    case None => vm.uiState.sessions == []
    case Some(speaker) =>
      && speaker.username == vm.username
      && forall i :: 0 <= i < |vm.uiState.sessions| ==> HasSpeaker(vm.uiState.sessions[i], vm.username)
  }

  /** `init { loadSpeaker() }`. */
  function Create(username: string, speakerResponse: Response<Option<seq<FullSpeaker>>>,
                  sessionsResponse: Response<Option<seq<DetailSession>>>): (vm: ViewModel)
    ensures vm.username == username && Valid(vm) && !vm.uiState.isLoading
    ensures vm.uiState.error.None? <==> vm.uiState.speaker.Some?
    ensures Succeeds(ViewModel(username, InitialState()), speakerResponse, sessionsResponse) ==>
              && vm.uiState.speaker == GetSpeakerByUsername(speakerResponse.data, username)
              && vm.uiState.sessions == GetSessionsForSpeaker(sessionsResponse.data, username)
    ensures !Succeeds(ViewModel(username, InitialState()), speakerResponse, sessionsResponse) ==>
              vm.uiState.speaker.None? && vm.uiState.sessions == []
  {
    LoadSpeaker(ViewModel(username, InitialState()), speakerResponse, sessionsResponse)
  }

  /** `refreshData()` runs the same load again. */
  function RefreshData(vm: ViewModel, speakerResponse: Response<Option<seq<FullSpeaker>>>,
                       sessionsResponse: Response<Option<seq<DetailSession>>>): (r: ViewModel)
    ensures r == LoadSpeaker(vm, speakerResponse, sessionsResponse)
  {
    LoadSpeaker(vm, speakerResponse, sessionsResponse)
  }

  /** Both updates of a load keep `Valid`: every listed session features the shown speaker. */
  lemma LoadKeepsValid(vm: ViewModel, speakerResponse: Response<Option<seq<FullSpeaker>>>,
                       sessionsResponse: Response<Option<seq<DetailSession>>>)
    requires Valid(vm)
    ensures Valid(BeginLoad(vm)) && Valid(LoadSpeaker(vm, speakerResponse, sessionsResponse))
  {
  }

  /** When the speaker is missing (or its fetch throws) the sessions fetch is never made. */
  lemma SessionsFetchSkipped(vm: ViewModel, speakerResponse: Response<Option<seq<FullSpeaker>>>,
                             sessions1: Response<Option<seq<DetailSession>>>,
                             sessions2: Response<Option<seq<DetailSession>>>)
    requires speakerResponse.Threw? || GetSpeakerByUsername(speakerResponse.data, vm.username).None?
    ensures LoadSpeaker(vm, speakerResponse, sessions1) == LoadSpeaker(vm, speakerResponse, sessions2)
  {
  }

  /** The speaker-details query keeps `years`, so a found speaker shows the fetched attendance years. */
  lemma LoadedYears(vm: ViewModel, speakerResponse: Response<Option<seq<FullSpeaker>>>,
                    sessionsResponse: Response<Option<seq<DetailSession>>>, k: nat)
    requires Succeeds(vm, speakerResponse, sessionsResponse)
    requires speakerResponse.data.Some? && k < |speakerResponse.data.value|
    requires speakerResponse.data.value[k].username == vm.username
    requires forall i :: 0 <= i < k ==> speakerResponse.data.value[i].username != vm.username
    ensures LoadSpeaker(vm, speakerResponse, sessionsResponse).uiState.speaker.value.years
            == speakerResponse.data.value[k].years
  {
    var data := speakerResponse.data.value;
    var found := GetSpeakerByUsername(speakerResponse.data, vm.username).value;
    var j :| 0 <= j < |data| && data[j] == AsFullSpeaker(found) &&
             forall i :: 0 <= i < j ==> data[i].username != vm.username;
    assert j == k;
  }

  /** Loading again with the same responses changes nothing more. */
  lemma LoadIdempotent(vm: ViewModel, speakerResponse: Response<Option<seq<FullSpeaker>>>,
                       sessionsResponse: Response<Option<seq<DetailSession>>>)
    ensures LoadSpeaker(LoadSpeaker(vm, speakerResponse, sessionsResponse), speakerResponse, sessionsResponse)
            == LoadSpeaker(vm, speakerResponse, sessionsResponse)
  {
  }
}

=== FILE: text.dfy ===
/**
 The Kotlin string operations the screens use, for a single-character
 delimiter: `indexOf`, `substringBefore`, `split` and `lowercase`.
 Case folding covers ASCII letters only.
 */
module Text {

  /** `s.indexOf(c)`: the position of the first `c` in `s`, or -1. */
  function IndexOf(s: string, c: char): (k: int)
    ensures -1 <= k < |s|
    ensures k == -1 <==> c !in s
    ensures 0 <= k ==> s[k] == c && c !in s[..k]
  {
    if |s| == 0 then -1
    else if s[0] == c then 0
    else
      var k := IndexOf(s[1..], c);
      if k == -1 then -1
      else
        assert s[..k + 1] == [s[0]] + s[1..][..k];
        k + 1
  }

  /** The first occurrence of `c` is unique, so it determines `IndexOf`. */
  lemma IndexOfAt(s: string, c: char, k: nat)
    requires k < |s| && s[k] == c && c !in s[..k]
    ensures IndexOf(s, c) == k
  {
  }

  /**
   `s.substringBefore(c)` with the default missing-delimiter value: the longest
   prefix of `s` free of `c`, which is all of `s` when `c` does not occur.
   */
  function SubstringBefore(s: string, c: char): (r: string)
    ensures r <= s
    ensures c !in r
    ensures c in s ==> |r| < |s| && s[|r|] == c
    ensures c !in s ==> r == s
  {
    var k := IndexOf(s, c);
    if k < 0 then s else s[..k]
  }

  /**
   `s.split(c)` with no limit: the pieces between occurrences of `c`,
   empty pieces included, so there is always at least one piece and there
   are at least two exactly when `c` occurs.
   */
  function Split(s: string, c: char): (parts: seq<string>)
    ensures |parts| >= 1
    ensures |parts| >= 2 <==> c in s
    ensures forall i :: 0 <= i < |parts| ==> c !in parts[i]
    ensures parts[0] == SubstringBefore(s, c)
    decreases |s|
  {
    var k := IndexOf(s, c);
    if k < 0 then [s] else [s[..k]] + Split(s[k + 1..], c)
  }

  /** One step of `Split` at the first delimiter. */
  lemma SplitUnfold(s: string, c: char)
    requires c in s
    ensures Split(s, c) == [s[..IndexOf(s, c)]] + Split(s[IndexOf(s, c) + 1..], c)
  {
  }

  /** The piece after the first `c`, up to the next `c` or the end. */
  lemma SplitSecond(s: string, c: char)
    requires c in s
    ensures Split(s, c)[1] == SubstringBefore(s[IndexOf(s, c) + 1..], c)
  {
    SplitUnfold(s, c);
  }

  /** `parts.joinToString(c)`: the inverse of `Split`. */
  function Join(parts: seq<string>, c: char): (s: string)
    ensures |parts| == 1 ==> s == parts[0]
    decreases |parts|
  {
    if |parts| == 0 then ""
    else if |parts| == 1 then parts[0]
    else parts[0] + [c] + Join(parts[1..], c)
  }

  /** Joining the pieces of a split restores the string. */
  lemma {:induction false} JoinSplit(s: string, c: char)
    ensures Join(Split(s, c), c) == s
    decreases |s|
  {
    var k := IndexOf(s, c);
    if k >= 0 {
      JoinSplit(s[k + 1..], c);
      assert s == s[..k] + [c] + s[k + 1..];
    }
  }

  /** Splitting at a first delimiter preceded by a delimiter-free piece. */
  lemma SplitCons(first: string, rest: string, c: char)
    requires c !in first
    ensures Split(first + [c] + rest, c) == [first] + Split(rest, c)
  {
    var s := first + [c] + rest;
    var k := |first|;
    assert s[..k] == first;
    assert s[k] == c;
    assert s[k + 1..] == rest;
    IndexOfAt(s, c, k);
    SplitUnfold(s, c);
  }

  /** Splitting a join of delimiter-free pieces gives the pieces back. */
  lemma {:induction false} SplitJoin(parts: seq<string>, c: char)
    requires |parts| >= 1
    requires forall i :: 0 <= i < |parts| ==> c !in parts[i]
    ensures Split(Join(parts, c), c) == parts
    decreases |parts|
  {
    if |parts| > 1 {
      var rest := Join(parts[1..], c);
      assert Join(parts, c) == parts[0] + [c] + rest;
      SplitCons(parts[0], rest, c);
      SplitJoin(parts[1..], c);
      assert parts == [parts[0]] + parts[1..];
    }
  }

  /** ASCII `lowercaseChar()`. */
  function LowerChar(ch: char): char
  {
    if 'A' <= ch <= 'Z' then (ch as int + 32) as char else ch
  }

  /** `s.lowercase()`, restricted to ASCII letters. */
  function Lowercase(s: string): (r: string)
    ensures |r| == |s|
    ensures forall i :: 0 <= i < |s| ==> r[i] == LowerChar(s[i])
  {
    seq(|s|, i requires 0 <= i < |s| => LowerChar(s[i]))
  }

  /** `a.equals(b, ignoreCase = true)`, character by character. */
  predicate EqualsIgnoreCase(a: string, b: string)
  {
    |a| == |b| && forall i :: 0 <= i < |a| ==> LowerChar(a[i]) == LowerChar(b[i])
  }

  /** Comparing lowercased strings is comparing ignoring case. */
  lemma LowercaseEqual(a: string, b: string)
    ensures Lowercase(a) == Lowercase(b) <==> EqualsIgnoreCase(a, b)
  {
    if EqualsIgnoreCase(a, b) {
      assert forall i :: 0 <= i < |a| ==> Lowercase(a)[i] == Lowercase(b)[i];
    }
  }
}

=== FILE: time_format.dfy ===
/**
 The date-time summary the three screens print for a session. Its single
 definition here is stated with `IndexOf`; each screen's own copy, written
 with `split` and `substringBefore`, is proved equal to it.
 */
module TimeFormat {
  import opened Text

  /** The date: what precedes the first 'T'. */
  function DatePart(s: string): (d: string)
    requires 'T' in s
    ensures 'T' !in d && d + "T" <= s
  {
    s[..IndexOf(s, 'T')]
  }

  /**
   The clock: the text after the first 'T' and before any second 'T', cut
   at the first '.' (whole when there is no '.'). It ends where `s` ends or
   at the first '.' or 'T' after the date.
   */
  function ClockPart(s: string): (t: string)
    requires 'T' in s
    ensures 'T' !in t && '.' !in t
    ensures DatePart(s) + "T" + t <= s
    ensures var e := |DatePart(s)| + 1 + |t|; e == |s| || s[e] == '.' || s[e] == 'T'
  {
    var k := IndexOf(s, 'T');
    var rest := s[k + 1..];
    var clock := SubstringBefore(rest, 'T');
    var t := SubstringBefore(clock, '.');
    assert t == rest[..|t|];
    assert s[k] == 'T';
    assert s[..k + 1 + |t|] == s[..k] + [s[k]] + rest[..|t|];
    assert |DatePart(s)| == k;
    assert '.' in clock ==> rest[|t|] == clock[|t|] == '.';
    assert '.' !in clock && 'T' in rest ==> t == clock && rest[|t|] == 'T';
    assert '.' !in clock && 'T' !in rest ==> t == clock == rest;
    t
  }

  /**
   `"start - end"` when either string has no 'T'; otherwise
   `"date, startClock - endClock"`, taking the date from `start` only.
   */
  function FormatSessionTime(start: string, end: string): string
  {
    if 'T' !in start || 'T' !in end then start + " - " + end
    else DatePart(start) + ", " + ClockPart(start) + " - " + ClockPart(end)
  }

  /** Once both strings hold a 'T', the date part of `end` plays no part. */
  lemma EndDateIgnored(start: string, end1: string, end2: string)
    requires 'T' in start && 'T' in end1 && 'T' in end2
    requires end1[IndexOf(end1, 'T')..] == end2[IndexOf(end2, 'T')..]
    ensures FormatSessionTime(start, end1) == FormatSessionTime(start, end2)
  {
    var k1, k2 := IndexOf(end1, 'T'), IndexOf(end2, 'T');
    assert end1[k1 + 1..] == end1[k1..][1..];
    assert end2[k2 + 1..] == end2[k2..][1..];
  }
}
